=== FILE: README.md ===
# Gemini Prompt Snippets, modelled in Dafny

This project models the two scripts of a browser extension that keeps a list
of reusable text snippets, each a `(title, text)` pair in the `snippets` key
of the synced extension store.

- The **content script** (`content/content.js`, class `SnippetManager`)
  watches the chat page. It injects one bar of snippet buttons into the
  host's input widget and re-renders the bar whenever the store changes.
  Clicking a button rebuilds the host's rich-text editor from the snippet
  text, one `<p>` per line, and puts the caret at the end.
- The **popup** (`popup/popup.js`, class `PopupManager`) lists the snippets.
  It adds, edits and deletes them through a small form with an edit mode.

Every handler is a pure function from the state before to the state after.
The browser's asynchronous storage calls are folded into that single step.
The store's contents and whether the read or the write fails are parameters
(`StoreIo` in the popup).

Modules:

- `Maybe`: the `Option` type.
- `JsString`: `String.prototype.trim`, `split` with a one-character
  separator, `Array.prototype.join`, and the UTF-16 length behind
  `textContent.length`, all written out as ECMA-262 defines them.
- `Dom`: the node kinds the scripts build (`Text`, `Br`, `P`, `Button`),
  `childNodes`, `textContent`, and a collapsed selection given as a boundary
  point.
- `Snippets`: the stored record, the list edits (append, guarded replace,
  filter-out-by-index), and the title derivation
  `title || text.split('\n')[0] || '無題'`.
- `Content`: `SnippetManager`, covering attachment, rendering, teardown,
  `insertText` and `setCursorToEnd`.
- `Popup`: `PopupManager`, covering rendering, edit mode, add, update and
  delete, and an event loop over all of them.

Four behaviours of the code that the model follows and that are easy to
misread:

- **Detached container.** When `input-container` exists but holds no
  `.input-area-container`, `createButtons` still creates a container. It
  keeps it in `this.container` without attaching it, so it is not a no-op.
  Later store changes re-render into that detached element.
- **No fallback on bar labels.** A bar button's label is the stored title
  as is, with no fallback. A snippet stored with an empty title gets a
  button with no visible label. Only the popup list falls back to "無題".
- **Stale bar.** The attach gate looks the bar's id up in the whole
  document, not in `this.container`. A bar this instance did not create,
  such as one left by an earlier instance of the script, therefore stops
  it for good (`Content.StaleBarBlocksInjection`). The host field
  `staleBar` records whether such a bar exists.
- **Caret placement.** `innerHTML += '<br><br>'` makes the second `<br>` the
  editor's last child. So the caret always lands inside that `<br>`
  (offset 0), after every paragraph, and not at the end of the last line of
  text (`Content.CaretLandsOnTrailingBreak`).

## Model

| member | source | states |
|---|---|---|
| JsString.Trim | popup/popup.js:364-365 | the trimmed value is what is left after cutting a whitespace prefix and a whitespace suffix. It is empty exactly when the input is all ECMA-262 whitespace, and otherwise starts and ends with a non-whitespace character |
| JsString.Split | content/content.js:91 | `split('\n')` yields one more piece than there are separators, at least one piece, and no piece contains the separator |
| JsString.JoinSplit | content/content.js:91 | joining the pieces of a split with the same separator reproduces the text |
| JsString.SplitJoin | content/content.js:91 | splitting a join of separator-free pieces gives back exactly those pieces |
| JsString.Utf16Length | content/content.js:119-120 | `textContent.length` lies between the number of characters and twice that number. It equals the number of characters exactly when no character lies outside the Basic Multilingual Plane |
| Dom.ChildNodes | content/content.js:116-117 | a paragraph's children are the nodes it holds. Text nodes and `<br>` have none. A button whose label was set through `textContent` has exactly one text child holding the label, or none when the label is empty |
| Dom.ChildTextConsistent | content/content.js:79 | an element's `textContent` equals the `textContent` of its child nodes in order. So a button's label set through `textContent` reads back through its one text child |
| Snippets.Append | popup/popup.js:385 | adding gives one more entry, placed at the end, with the earlier entries untouched |
| Snippets.ReplaceAt | popup/popup.js:338-343 | the guarded assignment replaces exactly the entry at an in-range index and leaves the array alone for any other index |
| Snippets.RemoveAt | popup/popup.js:421 | the index filter leaves the entries before and after the index, in order, and leaves the array alone for an out-of-range index |
| Snippets.FilterOutIndexIsRemoval | popup/popup.js:421 | filtering out one index, element by element, is the same as cutting that entry out of the array |
| Snippets.RemoveAppended | popup/popup.js:421 | deleting the entry just added at the end restores the previous array |
| Snippets.RemoveThenReinsert | popup/popup.js:421 | putting the deleted entry back at its position restores the array |
| Snippets.RemoveAtShifts | popup/popup.js:421 | after a delete, entries before the index keep their positions and entries after it move down by one |
| Snippets.ReplaceWithSame | popup/popup.js:338-343 | replacing an entry by itself leaves the array unchanged |
| Snippets.FirstLine | popup/popup.js:381 | the first line is a prefix of the text with no line break, and it runs up to the first line break or to the end of the text |
| Snippets.DeriveTitle | popup/popup.js:381 | the stored title is never empty. It is the typed title when there is one, else the first line, else "無題" |
| Snippets.SnippetFromForm | popup/popup.js:364-383 | a record is built exactly when the text field has a non-whitespace character. Its text is the trimmed field. Its title is the trimmed title field when that is non-empty, and otherwise the first line of the stored text, never empty |
| Snippets.UntitledFallbackUnreachable | popup/popup.js:364-383 | with an empty title the snippet is named after its first line, which is never empty and starts with a non-whitespace character, so the "無題" fallback cannot be reached |
| Snippets.ResaveKeepsText | popup/popup.js:320-342 | saving a form filled from a stored snippet keeps its text, because the stored text is already trimmed |
| Snippets.ListCaption | popup/popup.js:192 | the list caption is the title when the title is non-empty and "無題" otherwise |
| Content.Init | content/content.js:19-28 | a new manager holds no container and is observing. The marker id is found only if a stale bar is already in the page |
| Content.CreateButton | content/content.js:77-84 | a button's visible text is the snippet title, with no fallback, and its tooltip is the snippet text |
| Content.RenderBar | content/content.js:71-73 | the bar has one button per stored snippet, each in the same position as its snippet |
| Content.DisplayedRenderBar | content/content.js:69-74 | reading the labels and tooltips back from the rendered bar gives exactly the stored list, in order |
| Content.LoadAndCreateButtons | content/content.js:66-75 | without a container nothing changes. With one, the bar then holds only snippet buttons showing exactly the store, stays attached or detached as it was, and the host page is untouched |
| Content.CreateButtons | content/content.js:50-64 | the marker id is found afterwards exactly when it was found before or the host has both containers. A bar in the page is never replaced. A missing inner container leaves an empty detached bar, and a fresh attach shows the store |
| Content.CreateButtonsIdempotent | content/content.js:50-64 | a second attach attempt changes nothing, whatever the store holds by then |
| Content.OnMutation | content/content.js:31-34 | a mutation batch leaves the page alone unless the widget is mounted. A bar is in the page afterwards exactly when one was there before or the widget and both containers are present. An attached bar is never replaced |
| Content.AttachedBarIsStable | content/content.js:31-34 | once a bar is in the page, any number of further mutation batches leaves the page exactly as it is |
| Content.AttachOnceThenStable | content/content.js:31-64 | the first batch that sees the whole widget, with no bar already in the page, attaches one bar showing the store, and later batches keep exactly that bar |
| Content.OnStorageChanged | content/content.js:43-47 | only a sync-area change to `snippets` with a container present re-renders the bar, which then shows the new list. Whether this instance's own bar is attached, whether any bar is in the page, and the editor never change |
| Content.LaterChangeSupersedes | content/content.js:43-47 | two store notifications in a row leave the same page as the later one alone |
| Content.Destroy | content/content.js:158-161 | after teardown the observer is off and this instance's bar is out of the page, while the removed bar keeps its buttons. A stale bar it never held stays |
| Content.DestroyedStaysDetached | content/content.js:158-161 | after teardown no mutation batch can inject a bar again |
| Content.ReattachAfterRemount | content/content.js:50-64 | after the host tears down and rebuilds its widget, the next batch attaches one fresh bar showing the current store, unless the new widget carries a stale bar |
| Content.StaleBarBlocksInjection | content/content.js:44-51 | when a bar this instance did not create is already in the page, no mutation batch ever creates a container and the storage listener never renders |
| Content.Paragraph | content/content.js:92-94 | each line becomes either a blank paragraph holding one `<br>` or a paragraph holding the untrimmed line as text |
| Content.ParagraphBlankIff | content/content.js:93-94 | the blank paragraph is chosen exactly for whitespace-only lines |
| Content.Paragraphs | content/content.js:91-96 | one paragraph per line, in line order |
| Content.EditorContent | content/content.js:90-97 | the rebuilt editor holds the paragraphs of the `'\n'`-split lines followed by exactly two `<br>`, so there are as many children as line breaks plus three |
| Content.SetCursorToEnd | content/content.js:110-136 | the caret is at the very end of the node it names. It is anchored in the editor itself exactly when the editor is empty. It is in the last child's last child exactly when that is a text node, and otherwise in the last child |
| Content.InsertText | content/content.js:86-103 | without an editor nothing changes. Otherwise the editor holds the rebuilt content with the caret at an end position. The bar and all other host fields, including any stale bar, stay as they were, so the marker is unchanged |
| Content.ClickButton | content/content.js:82 | clicking a button that does not exist changes nothing |
| Content.ClickInsertsRenderedSnippet | content/content.js:80-82 | after a render, the i-th button inserts the i-th stored snippet's text |
| Content.ParagraphReadsAsLine | content/content.js:92-94 | each paragraph's `textContent` is its line, or empty for a whitespace-only line |
| Content.LineRoundTrip | content/content.js:90-96 | joining the paragraphs' `textContent` with `'\n'` gives back the inserted text whenever it has no whitespace-only non-empty line |
| Content.BlankMiddleLine | content/content.js:90-97 | two lines around an empty line give a text paragraph, a blank paragraph, a text paragraph, then two `<br>` |
| Content.CaretLandsOnTrailingBreak | content/content.js:114-128 | because of the two `<br>` appended at line 97, the caret always ends inside the final `<br>` at offset 0, after every paragraph |
| Popup.Init | popup/popup.js:36-40 | a new popup is not editing and satisfies the edit-mode invariant |
| Popup.CreateSnippetItem | popup/popup.js:185-225 | an item's caption is never empty: it is the title, or "無題" when the title is empty. Its tooltip is the text |
| Popup.Items | popup/popup.js:165-167 | one item per snippet, each bound to its own snippet and index |
| Popup.RenderSnippets | popup/popup.js:155-168 | an empty array shows only the empty-state message. Otherwise there is one item per snippet, in order |
| Popup.ListedRenderSnippets | popup/popup.js:155-168 | reading back the snippets the rendered items are bound to gives the rendered array, in order |
| Popup.RenderedItemsPointBack | popup/popup.js:185-217 | every rendered item's edit and delete buttons are bound to the snippet it shows and to that snippet's position in the array |
| Popup.ClearInputs | popup/popup.js:486-491 | both fields end up empty and nothing else changes |
| Popup.AddCancelButton | popup/popup.js:271-284 | a cancel button is added only when none exists and the action area does. Nothing else changes |
| Popup.AddCancelButtonIdempotent | popup/popup.js:271-273 | adding the cancel button twice is the same as once, and never yields a second one |
| Popup.StartEdit | popup/popup.js:232-252 | entering edit mode records the index, fills both fields from the snippet, shows "更新", and keeps the edit-mode invariant |
| Popup.CancelEdit | popup/popup.js:289-303 | leaving edit mode clears the index and both fields, shows "追加", removes the cancel button, and keeps the invariant |
| Popup.StartThenCancel | popup/popup.js:289-303 | starting and then cancelling an edit leaves add mode with an empty form and no cancel button |
| Popup.LoadSnippets | popup/popup.js:139-149 | a successful read renders the store. A failed read shows the load error and changes nothing else |
| Popup.OnStorageChanged | popup/popup.js:129-133 | a sync-area change to `snippets` re-renders the new array, or the empty state when it was removed. Any other change does nothing, and only the list is ever touched |
| Popup.AddSnippet | popup/popup.js:363-400 | a blank text field, a failed read or a failed write leaves store and popup as they were. Otherwise the store gains exactly the built record at the end, the form clears, and the list shows the new store |
| Popup.UpdateSnippet | popup/popup.js:319-358 | the array length never changes and only the edited position can change. On success the edited in-range entry becomes the built record and edit mode ends. Every failure leaves store and popup unchanged |
| Popup.HandleAddOrUpdate | popup/popup.js:308-314 | in edit mode the count is kept and only the edited entry can change. A successful save writes the record built from the form at an in-range edited index and ends edit mode. Otherwise existing entries are untouched and at most one is added at the end; a successful save appends the built record |
| Popup.DeleteSnippet | popup/popup.js:406-435 | an unconfirmed dialog changes nothing and a failed read or write leaves the store. Otherwise the store loses the entry at the index and the list is re-rendered, while `editingIndex` is left as it was |
| Popup.DeleteWhileEditingOverwritesNeighbour | popup/popup.js:406-435 | as written, editing index 2 of `[a, b, c, d]`, deleting index 0 and then saving gives `[b, c, s]`: `d` is lost and `c` is not updated |
| Popup.DeleteSnippetKeepingEdit | popup/popup.js:406-435 | the same store change and toast as the delete above, and the edit-mode invariant is kept |
| Popup.KeptEditFollowsEntry | popup/popup.js:406-435 | after a successful delete of another entry, `editingIndex` still names the entry being edited. Deleting the edited entry ends edit mode |
| Popup.DeleteThenUpdateHitsEditedEntry | popup/popup.js:319-343 | deleting before the edited entry and then saving replaces the edited entry and nothing else |
| Popup.Dispatch | popup/popup.js:117-133 | every user or store event keeps the edit-mode invariant, and a delete leaves `editingIndex` as it was |
| Popup.DispatchCorrected | popup/popup.js:406-435 | with the corrected delete, every event still keeps the invariant, events other than a delete are handled as in `Dispatch`, and every store change is the same |
| Popup.RunKeepsConsistent | popup/popup.js:232-303 | over any sequence of events, in the source's loop and in the corrected one, the popup shows at most one cancel button, and only while editing. It shows "更新" exactly while editing |

## Left out

- The `MutationObserver` and event-listener wiring. Only what the callbacks do is modelled.
- The asynchronous storage calls. Each read-modify-write is one atomic step, so a store change between the read and the write is not modelled.
- Content.LoadAndCreateButtons: the content script never checks the storage read for an error. The model always delivers the stored list.
- `focusEditor`, the synthetic `input` event, `adjustHeight` and `scrollToBottom`. They change focus, layout and scrolling only, none of which the model represents.
- The ripple effect, toast timers and styling, floating labels, and the delete-dialog DOM. The dialog's outcome is the `confirmed` parameter.
- The HTML re-parse caused by `innerHTML += '<br><br>'`. It would turn CR into LF and drop NUL characters in line text; the model keeps text nodes as built.
- Lone UTF-16 surrogates. Dafny strings hold Unicode scalar values only.
- Stored records of another shape, such as a missing `title` or `text` or non-string values. Every stored entry is a `(title, text)` pair of strings.
- A popup page without `snippets-list`, the add button, or the text and title inputs. They are assumed present.
- Popup.OnStorageChanged: the popup also sees its own writes through this listener. The event loop treats them as separate `StorageChanged` events.

## Findings

| source | as written | input that shows it | evidently intended | confidence | as-written member | corrected member |
|---|---|---|---|---|---|---|
| popup/popup.js:406-435 | a successful delete re-indexes the array but leaves `editingIndex` unchanged, and `updateSnippet` (line 338) writes to that stale index | store `[a, b, c, d]`; edit `c` (index 2); delete `a` (index 0); save text `s`: the store becomes `[b, c, s]` | the save replaces the entry being edited: `[b, s, d]` | medium, not executed | Popup.DeleteWhileEditingOverwritesNeighbour | Popup.DeleteThenUpdateHitsEditedEntry |

The corrected delete is `Popup.DeleteSnippetKeepingEdit`. After deleting an
entry before the edited one, it moves `editingIndex` down by one. Deleting
the edited entry itself ends edit mode. `Popup.Dispatch` is the popup's
event loop as written, with the delete as written. `Popup.DispatchCorrected`
is the same loop with the corrected delete. `Popup.RunKeepsConsistent`
covers both loops.

=== FILE: content.dfy ===
/**
  The content script's SnippetManager (content/content.js): it injects the
  snippet bar into the host page once, re-renders it from the store, and
  rebuilds the host's rich-text editor from a snippet's text.

  Every handler is a function from the page before to the page after. The
  store is passed in as the list that `chrome.storage.sync.get` would deliver,
  and the asynchronous callback is folded into the same step.
 */
module Content {
  import opened Maybe
  import opened JsString
  import opened Dom
  import opened Snippets

  /** The storage key whose changes trigger a re-render. */
  const StorageKey: string := "snippets"

  /** `this.container`: the injected bar element, whether it is currently in
      the document, and its children. */
  datatype Bar = Bar(attached: bool, buttons: seq<Node>)

  /** What the script looks up on the host page. */
  datatype Host = Host(
    widgetMounted: bool,       // an `input-area-v2` element exists
    staleBar: bool,            // an element with the bar's id that this
                               // instance did not create, such as one left
                               // by an earlier instance of the script
    inputContainer: bool,      // an `input-container` element exists
    inputAreaContainer: bool,  // it holds an `.input-area-container`
    editor: Option<seq<Node>>, // the children of `div.ql-editor`, if present
    selection: Option<Caret>)  // the window selection, inside the editor

  /** The host page together with SnippetManager's own fields. */
  datatype Page = Page(host: Host, container: Option<Bar>, observing: bool)

  /** The constructor: no container yet, and the mutation observer running.
      The marker id is found only if a stale bar is already in the page. */
  function Init(host: Host): (p: Page)
    ensures p.container.None? && p.observing && p.host == host
    ensures MarkerPresent(p) <==> host.staleBar
  {
    Page(host, None, true)
  }

  /** The bar this instance holds in `this.container` is in the document. */
  predicate OwnBarAttached(p: Page) {
    p.container.Some? && p.container.value.attached
  }

  /** `document.getElementById('gemini-snippet-container')` finds an element:
      a stale bar, or the one this instance attached. */
  predicate MarkerPresent(p: Page) {
    p.host.staleBar || OwnBarAttached(p)
  }

  /* ---------------------------------------------------------------------- */
  /* Button bar                                                              */
  /* ---------------------------------------------------------------------- */

  /** `createButton`: a button whose visible text is the title and whose
      tooltip is the full text, with no fallback for an empty title. */
  function CreateButton(s: Snippet): (b: Node)
    ensures b.Button? && TextContent(b) == s.title && b.tooltip == s.text
  {
    Button(s.title, s.text)
  }

  /** The `forEach` over the stored list: one button per snippet, in order. */
  function RenderBar(list: seq<Snippet>): (r: seq<Node>)
    ensures |r| == |list|
    ensures forall i :: 0 <= i < |list| ==> r[i] == CreateButton(list[i])
  {
    if |list| == 0 then [] else [CreateButton(list[0])] + RenderBar(list[1..])
  }

  /** The bar holds only snippet buttons, and their (caption, tooltip) pairs
      read in order are `list`. */
  predicate Shows(buttons: seq<Node>, list: seq<Snippet>) {
    && (forall i :: 0 <= i < |buttons| ==> buttons[i].Button?)
    && Displayed(buttons) == list
  }

  /** Reads back the (caption, tooltip) pairs a bar displays. */
  function Displayed(buttons: seq<Node>): seq<Snippet> {
    if |buttons| == 0 then []
    else
      var b := buttons[0];
      [if b.Button? then Snippet(b.caption, b.tooltip) else Snippet("", "")]
        + Displayed(buttons[1..])
  }

  /** The bar shows exactly the stored list: reading the captions and
      tooltips back gives the list itself, in order. */
  lemma {:induction false} DisplayedRenderBar(list: seq<Snippet>)
    ensures Displayed(RenderBar(list)) == list
  {
    if |list| > 0 {
      DisplayedRenderBar(list[1..]);
      assert RenderBar(list)[1..] == RenderBar(list[1..]);
    }
  }

  /** `loadAndCreateButtons`: nothing without a container; otherwise the
      container's children are replaced by one button per stored snippet.
      The container stays where it is, and the host page is not touched. */
  function LoadAndCreateButtons(p: Page, stored: seq<Snippet>): (r: Page)
    ensures p.container.None? ==> r == p
    ensures r.host == p.host && r.observing == p.observing
    ensures p.container.Some? ==>
      && r.container.Some?
      && r.container.value.attached == p.container.value.attached
      && Shows(r.container.value.buttons, stored)
  {
    match p.container
    case None => p
    case Some(bar) =>
      DisplayedRenderBar(stored);
      p.(container := Some(bar.(buttons := RenderBar(stored))))
  }

  /** `createButtons`, gated first by the marker id and then by the host's
      `input-container`. Without an `.input-area-container` it only creates
      a detached container; with one, it attaches the container and renders. */
  function CreateButtons(p: Page, stored: seq<Snippet>): (r: Page)
    ensures MarkerPresent(p) ==> r == p
    ensures !p.host.inputContainer ==> r == p
    ensures r.host == p.host && r.observing == p.observing
    // the bar held before is replaced only when it is not in the document,
    // so no injected bar is ever left behind in the page
    ensures r.container != p.container ==> !MarkerPresent(p)
    ensures MarkerPresent(r) <==>
      MarkerPresent(p) || (p.host.inputContainer && p.host.inputAreaContainer)
    ensures !MarkerPresent(p) && p.host.inputContainer && !p.host.inputAreaContainer ==>
      r.container == Some(Bar(false, []))
    ensures !MarkerPresent(p) && p.host.inputContainer && p.host.inputAreaContainer ==>
      Shows(r.container.value.buttons, stored)
  {
    if MarkerPresent(p) then p
    else if !p.host.inputContainer then p
    else if !p.host.inputAreaContainer then p.(container := Some(Bar(false, [])))
    else LoadAndCreateButtons(p.(container := Some(Bar(true, []))), stored)
  }

  /** A second `createButtons` changes nothing, whatever the store holds by
      then: either the first attached the bar and the marker now stops the
      second, or both did the same thing. */
  lemma CreateButtonsIdempotent(p: Page, first: seq<Snippet>, second: seq<Snippet>)
    ensures CreateButtons(CreateButtons(p, first), second) == CreateButtons(p, first)
  {
  }

  /* ---------------------------------------------------------------------- */
  /* Observers and teardown                                                  */
  /* ---------------------------------------------------------------------- */

  /** The MutationObserver callback for one batch of mutations: it calls
      `createButtons` whenever the host's `input-area-v2` widget is present. */
  function OnMutation(p: Page, stored: seq<Snippet>): (r: Page)
    ensures !p.observing || !p.host.widgetMounted ==> r == p
    ensures r.host == p.host && r.observing == p.observing
    ensures r.container != p.container ==> !MarkerPresent(p)
    ensures MarkerPresent(r) <==> (MarkerPresent(p)
      || (p.observing && p.host.widgetMounted && p.host.inputContainer && p.host.inputAreaContainer))
  {
    if p.observing && p.host.widgetMounted then CreateButtons(p, stored) else p
  }

  /** A run of mutation batches, each seeing the store as it then is. */
  function OnMutations(p: Page, stores: seq<seq<Snippet>>): Page
    decreases |stores|
  {
    if |stores| == 0 then p else OnMutations(OnMutation(p, stores[0]), stores[1..])
  }

  /** Once the bar is in the document, any number of further mutation
      batches leaves the page exactly as it is: still one bar, with the same
      buttons. */
  lemma {:induction false} AttachedBarIsStable(p: Page, stores: seq<seq<Snippet>>)
    requires MarkerPresent(p)
    ensures OnMutations(p, stores) == p
    decreases |stores|
  {
    if |stores| > 0 {
      assert OnMutation(p, stores[0]) == p;
      AttachedBarIsStable(p, stores[1..]);
    }
  }

  /** The first mutation batch that finds the whole input widget attaches the
      bar with one button per stored snippet, and later batches keep exactly
      that bar. */
  lemma AttachOnceThenStable(p: Page, stored: seq<Snippet>, later: seq<seq<Snippet>>)
    requires p.observing && p.host.widgetMounted
    requires p.host.inputContainer && p.host.inputAreaContainer
    ensures var q := OnMutations(p, [stored] + later);
      MarkerPresent(q) && q.host == p.host
      && (!MarkerPresent(p) ==> OwnBarAttached(q) && Shows(q.container.value.buttons, stored))
  {
    var q1 := OnMutation(p, stored);
    assert ([stored] + later)[1..] == later;
    assert OnMutations(p, [stored] + later) == OnMutations(q1, later);
    AttachedBarIsStable(q1, later);
  }

  /** The `chrome.storage.onChanged` listener: it re-renders only for a
      change to the snippet key in the sync area, and only once a container
      exists. The host page, editor included, is never touched. */
  function OnStorageChanged(p: Page, area: string, changedKeys: set<string>,
                            stored: seq<Snippet>): (r: Page)
    ensures r.host == p.host && r.observing == p.observing
    ensures r.container.Some? == p.container.Some?
    ensures MarkerPresent(r) == MarkerPresent(p)
    ensures OwnBarAttached(r) == OwnBarAttached(p)
    ensures !(area == "sync" && StorageKey in changedKeys) ==> r == p
    ensures area == "sync" && StorageKey in changedKeys && p.container.Some? ==>
      Shows(r.container.value.buttons, stored)
  {
    if area == "sync" && StorageKey in changedKeys && p.container.Some? then
      LoadAndCreateButtons(p, stored)
    else p
  }

  /** Store notifications carry the whole list, so a later one fully
      supersedes an earlier one. */
  lemma LaterChangeSupersedes(p: Page, area: string, keys: set<string>,
                              earlier: seq<Snippet>, later: seq<Snippet>)
    ensures OnStorageChanged(OnStorageChanged(p, area, keys, earlier), area, keys, later)
         == OnStorageChanged(p, area, keys, later)
  {
  }

  /** `destroy`: the observer is disconnected and the container removed from
      the document. `this.container` keeps pointing at the removed element;
      a stale bar this instance never held stays. */
  function Destroy(p: Page): (r: Page)
    ensures !r.observing && !OwnBarAttached(r)
    ensures MarkerPresent(r) <==> p.host.staleBar
    ensures r.host == p.host
    ensures r.container.Some? == p.container.Some?
    ensures p.container.Some? ==> r.container.value.buttons == p.container.value.buttons
  {
    match p.container
    case None => p.(observing := false)
    case Some(bar) => p.(observing := false, container := Some(bar.(attached := false)))
  }

  /** After teardown no mutation batch can inject a bar again. */
  lemma {:induction false} DestroyedStaysDetached(p: Page, stores: seq<seq<Snippet>>)
    ensures OnMutations(Destroy(p), stores) == Destroy(p)
    decreases |stores|
  {
    if |stores| > 0 {
      DestroyedStaysDetached(p, stores[1..]);
    }
  }

  /** The host tears its input widget down; the bar inside it goes too, while
      `this.container` still refers to the removed element. */
  function HostUnmount(p: Page): Page {
    p.(host := Host(false, false, false, false, None, None),
       container := if p.container.Some? then Some(p.container.value.(attached := false)) else None)
  }

  /** The host mounts a fresh input widget. */
  function HostMount(p: Page, host: Host): Page {
    p.(host := host)
  }

  /** When the host rebuilds its input widget, the next mutation batch
      attaches exactly one fresh bar rendered from the current store, unless
      the new widget already carries a stale bar. */
  lemma ReattachAfterRemount(p: Page, host: Host, stored: seq<Snippet>)
    requires p.observing
    requires host.widgetMounted && host.inputContainer && host.inputAreaContainer
    ensures var q := OnMutation(HostMount(HostUnmount(p), host), stored);
      && MarkerPresent(q)
      && (!host.staleBar ==> OwnBarAttached(q) && Shows(q.container.value.buttons, stored))
      && (host.staleBar ==> !OwnBarAttached(q))
  {
  }

  /** A stale bar in the page (say, from an earlier instance of the script)
      stops this instance for good: no mutation batch ever creates a
      container, so the storage listener never renders either. */
  lemma StaleBarBlocksInjection(host: Host, stores: seq<seq<Snippet>>,
                                area: string, keys: set<string>, stored: seq<Snippet>)
    requires host.staleBar
    ensures OnMutations(Init(host), stores) == Init(host)
    ensures OnStorageChanged(Init(host), area, keys, stored) == Init(host)
  {
    AttachedBarIsStable(Init(host), stores);
  }

  /* ---------------------------------------------------------------------- */
  /* Editor insertion                                                        */
  /* ---------------------------------------------------------------------- */

  /** The `<p>` built for one line: a whitespace-only line becomes
      `<p><br></p>`, any other line a paragraph holding the untrimmed line.
      The test `line.trim() === ''` is written as `AllWhitespace(line)`;
      `ParagraphBlankIff` shows the two agree. */
  function Paragraph(line: string): (n: Node)
    ensures n == P([Br]) || n == P([Text(line)])
  {
    if AllWhitespace(line) then P([Br]) else P([Text(line)])
  }

  /** The blank form is chosen exactly for the lines whose trim is empty. */
  lemma ParagraphBlankIff(line: string)
    ensures Paragraph(line) == P([Br]) <==> Trim(line) == ""
    ensures Trim(line) != "" ==> Paragraph(line) == P([Text(line)])
  {
  }

  function Paragraphs(lines: seq<string>): (r: seq<Node>)
    ensures |r| == |lines|
    ensures forall i :: 0 <= i < |lines| ==> r[i] == Paragraph(lines[i])
  {
    if |lines| == 0 then [] else [Paragraph(lines[0])] + Paragraphs(lines[1..])
  }

  /** The editor's children after `insertText`: one paragraph per
      `'\n'`-separated line, then the two `<br>` of `innerHTML += '<br><br>'`. */
  function EditorContent(text: string): (c: seq<Node>)
    ensures |c| == Count(text, '\n') + 3
    ensures c[|c| - 2..] == [Br, Br]
    ensures c[..|c| - 2] == Paragraphs(Split(text, '\n'))
  {
    var c := Paragraphs(Split(text, '\n')) + [Br, Br];
    assert c[|c| - 2..] == [Br, Br];
    c
  }

  /** `setCursorToEnd`, as its decision table: the end of the last child's
      last text node; else the end of the last child; else the end of the
      editor. Whatever the case, the caret sits at the end of the node it
      names. */
  function SetCursorToEnd(children: seq<Node>): (c: Caret)
    ensures AtEndOf(children, c)
    ensures c.anchor.Root? <==> children == []
    ensures c.anchor.Grandchild? <==>
      children != [] && ChildNodes(Last(children)) != []
      && Last(ChildNodes(Last(children))).Text?
    ensures c.anchor.Child? ==> c.anchor.i == |children| - 1
    ensures c.anchor.Grandchild? ==>
      c.anchor.i == |children| - 1 && c.anchor.j == |ChildNodes(Last(children))| - 1
  {
    if |children| > 0 then
      var last := children[|children| - 1];
      var kids := ChildNodes(last);
      if |kids| > 0 then
        var node := kids[|kids| - 1];
        if node.Text? then Caret(Grandchild(|children| - 1, |kids| - 1), Utf16Length(node.data))
        else Caret(Child(|children| - 1), NodeLength(last))
      else Caret(Child(|children| - 1), NodeLength(last))
    else Caret(Root, |children|)
  }

  function Last<T>(s: seq<T>): T
    requires s != []
  {
    s[|s| - 1]
  }

  /** `insertText`: without a `div.ql-editor` nothing changes; otherwise the
      editor's content is rebuilt from the text and the caret placed at its
      end. The bar and the host's other elements are left alone. */
  function InsertText(p: Page, text: string): (r: Page)
    ensures p.host.editor.None? ==> r == p
    ensures r.container == p.container && r.observing == p.observing
    ensures r.host == p.host.(editor := r.host.editor, selection := r.host.selection)
    ensures MarkerPresent(r) == MarkerPresent(p)
    ensures p.host.editor.Some? ==>
      && r.host.editor == Some(EditorContent(text))
      && r.host.selection.Some?
      && AtEndOf(r.host.editor.value, r.host.selection.value)
  {
    if p.host.editor.None? then p
    else
      var children := EditorContent(text);
      p.(host := p.host.(editor := Some(children), selection := Some(SetCursorToEnd(children))))
  }

  /** The click handler of the `i`-th button of the bar inserts the text it
      was created for, which is also its tooltip. */
  function ClickButton(p: Page, i: nat): (r: Page)
    ensures p.container.None? || i >= |p.container.value.buttons| ==> r == p
  {
    if p.container.Some? && i < |p.container.value.buttons|
       && p.container.value.buttons[i].Button?
    then InsertText(p, p.container.value.buttons[i].tooltip)
    else p
  }

  /** After a render from `stored`, clicking the `i`-th button inserts the
      text of the `i`-th stored snippet. */
  lemma ClickInsertsRenderedSnippet(p: Page, stored: seq<Snippet>, i: nat)
    requires p.container.Some? && i < |stored|
    ensures ClickButton(LoadAndCreateButtons(p, stored), i)
         == InsertText(LoadAndCreateButtons(p, stored), stored[i].text)
  {
  }

  /** What each paragraph reads as: its `textContent`. */
  function Lines(ns: seq<Node>): (r: seq<string>)
    ensures |r| == |ns|
    ensures forall i :: 0 <= i < |ns| ==> r[i] == TextContent(ns[i])
  {
    if |ns| == 0 then [] else [TextContent(ns[0])] + Lines(ns[1..])
  }

  /** Each rebuilt paragraph reads as its line, except that a
      whitespace-only line reads as the empty line. */
  lemma ParagraphReadsAsLine(line: string)
    ensures TextContent(Paragraph(line)) == if AllWhitespace(line) then "" else line
  {
    ParagraphBlankIff(line);
    if AllWhitespace(line) {
      assert TextContentAll([Br]) == "";
    } else {
      assert TextContentAll([Text(line)]) == line + TextContentAll([]);
    }
  }

  /** Every line of `text` is empty or has a non-whitespace character. */
  predicate NoBlankFilledLines(text: string) {
    forall i :: 0 <= i < |Split(text, '\n')| ==>
      Split(text, '\n')[i] == "" || !AllWhitespace(Split(text, '\n')[i])
  }

  /** Line round-trip: joining what the paragraphs read (without the two
      trailing `<br>`) with `'\n'` reproduces the inserted text, unless it
      has a line made only of whitespace, which comes back empty. */
  lemma LineRoundTrip(text: string)
    requires NoBlankFilledLines(text)
    ensures var c := EditorContent(text);
      Join(Lines(c[..|c| - 2]), '\n') == text
  {
    var c := EditorContent(text);
    var pieces := Split(text, '\n');
    assert c[..|c| - 2] == Paragraphs(pieces);
    ParagraphsReadAsLines(pieces);
    JoinSplit(text, '\n');
  }

  lemma ParagraphsReadAsLines(pieces: seq<string>)
    requires forall i :: 0 <= i < |pieces| ==> pieces[i] == "" || !AllWhitespace(pieces[i])
    ensures Lines(Paragraphs(pieces)) == pieces
  {
    var lines := Lines(Paragraphs(pieces));
    forall i | 0 <= i < |pieces| ensures lines[i] == pieces[i] {
      ParagraphReadsAsLine(pieces[i]);
    }
  }

  /** Two lines of text around an empty line give three paragraphs, the
      middle one blank, then the two trailing `<br>`. */
  lemma BlankMiddleLine(a: string, b: string)
    requires '\n' !in a && '\n' !in b
    requires !AllWhitespace(a) && !AllWhitespace(b)
    ensures EditorContent(a + "\n\n" + b) == [P([Text(a)]), P([Br]), P([Text(b)]), Br, Br]
  {
    var lines := [a, "", b];
    assert Join(lines, '\n') == a + "\n\n" + b by {
      assert Join(lines[2..], '\n') == b;
      assert Join(lines[1..], '\n') == "" + ['\n'] + b;
    }
    SplitJoin(lines, '\n');
    assert Paragraphs(lines) == [Paragraph(a), Paragraph(""), Paragraph(b)];
  }

  /** After `insertText` the last child is always the second trailing `<br>`,
      which has no children, so the caret is collapsed inside that `<br>`,
      after every paragraph, never at the end of the last line of text. */
  lemma CaretLandsOnTrailingBreak(p: Page, text: string)
    requires p.host.editor.Some?
    ensures var c := EditorContent(text);
      InsertText(p, text).host.selection == Some(Caret(Child(|c| - 1), 0))
      && c[|c| - 1] == Br
      && |c| - 1 >= |Split(text, '\n')|
  {
    CaretAfterBreak(EditorContent(text));
  }

  /** An editor whose last child is a `<br>` gets the caret inside it. */
  lemma CaretAfterBreak(children: seq<Node>)
    requires children != [] && children[|children| - 1] == Br
    ensures SetCursorToEnd(children) == Caret(Child(|children| - 1), 0)
  {
  }
}

=== FILE: dom.dfy ===
/**
  An abstract document fragment: just the node kinds the two scripts create
  or inspect, the `textContent` reading of a node, and a selection boundary
  point inside an element's subtree.
 */
module Dom {
  import opened JsString

  /** `<p>` holds child nodes; a snippet button carries its caption (set through
      `textContent`) and its tooltip (the `title` attribute). */
  datatype Node =
    | Text(data: string)
    | Br
    | P(children: seq<Node>)
    | Button(caption: string, tooltip: string)

  /** `childNodes`. Assigning "" to `textContent` leaves an element with no
      children; any other string leaves exactly one text node. */
  function ChildNodes(n: Node): (r: seq<Node>)
    ensures n.Text? || n.Br? ==> r == []
    ensures n.P? ==> r == n.children
    ensures n.Button? ==> |r| <= 1
    ensures n.Button? && n.caption != "" ==> r == [Text(n.caption)]
    ensures n.Button? && n.caption == "" ==> r == []
  {
    match n
    case P(children) => children
    case Button(caption, _) => if caption == "" then [] else [Text(caption)]
    case _ => []
  }

  /** `textContent`: the concatenated data of the text nodes below `n`. */
  function TextContent(n: Node): string
    decreases n, 1
  {
    match n
    case Text(data) => data
    case Br => ""
    case P(children) => TextContentAll(children)
    case Button(caption, _) => caption
  }

  function TextContentAll(ns: seq<Node>): string
    decreases ns, 0
  {
    if |ns| == 0 then "" else TextContent(ns[0]) + TextContentAll(ns[1..])
  }

  /** The two readings of an element agree: its `textContent` is the
      `textContent` of its child nodes, in order. For a button this ties the
      caption set through `textContent` to the text child it leaves. */
  lemma ChildTextConsistent(n: Node)
    requires !n.Text?
    ensures TextContentAll(ChildNodes(n)) == TextContent(n)
  {
    if n.Button? && n.caption != "" {
      assert TextContentAll([Text(n.caption)]) == n.caption + TextContentAll([]);
    }
  }

  /** Where a boundary point sits, relative to an element whose children are
      given: the element itself, one of its children, or a child of a child. */
  datatype Anchor = Root | Child(i: nat) | Grandchild(i: nat, j: nat)

  /** A collapsed selection range: an anchor node and an offset in it. */
  datatype Caret = Caret(anchor: Anchor, offset: nat)

  /** The DOM "length" of a node: UTF-16 code units for a text node, the
      number of children otherwise. */
  function NodeLength(n: Node): nat {
    if n.Text? then Utf16Length(n.data) else |ChildNodes(n)|
  }

  /** True when `c` names a node that exists below the element with
      `children` and sits at that node's very end. */
  predicate AtEndOf(children: seq<Node>, c: Caret) {
    match c.anchor
    case Root => c.offset == |children|
    case Child(i) => i < |children| && c.offset == NodeLength(children[i])
    case Grandchild(i, j) =>
      i < |children| && j < |ChildNodes(children[i])|
      && c.offset == NodeLength(ChildNodes(children[i])[j])
  }
}

=== FILE: js_string.dfy ===
/**
  The three JavaScript string built-ins both scripts rely on, written out the
  way ECMA-262 defines them: `String.prototype.trim`, `String.prototype.split`
  with a one-character separator, and `Array.prototype.join`, plus the UTF-16
  length that `textContent.length` reports.

  Strings are `seq<char>` of Unicode scalar values; a JavaScript string is a
  sequence of UTF-16 code units, so lone surrogates are not representable here.
 */
module JsString {

  /** The characters `trim` removes: ECMA-262 WhiteSpace (TAB, VT, FF, SP, NBSP,
      ZWNBSP and the Unicode "Zs" category) and LineTerminator (LF, CR, LS, PS). */
  predicate IsWhitespace(c: char) {
    || c == '\t' || c == '\U{000B}' || c == '\U{000C}' || c == ' '
    || c == '\U{00A0}' || c == '\U{FEFF}'
    || c == '\U{1680}' || ('\U{2000}' <= c <= '\U{200A}')
    || c == '\U{202F}' || c == '\U{205F}' || c == '\U{3000}'
    || c == '\n' || c == '\r' || c == '\U{2028}' || c == '\U{2029}'
  }

  predicate AllWhitespace(s: string) {
    forall i :: 0 <= i < |s| ==> IsWhitespace(s[i])
  }

  /** Removes leading whitespace: the result is the longest suffix of `s`
      that does not start with whitespace. */
  function TrimStart(s: string): (r: string)
    ensures |r| <= |s| && r == s[|s| - |r|..]
    ensures AllWhitespace(s[..|s| - |r|])
    ensures r == [] || !IsWhitespace(r[0])
  {
    if |s| > 0 && IsWhitespace(s[0]) then
      var r := TrimStart(s[1..]);
      assert s[1..][..|s| - 1 - |r|] == s[1..|s| - |r|];
      r
    else s
  }

  /** Removes trailing whitespace: the result is the longest prefix of `s`
      that does not end with whitespace. */
  function TrimEnd(s: string): (r: string)
    ensures |r| <= |s| && r == s[..|r|]
    ensures AllWhitespace(s[|r|..])
    ensures r == [] || !IsWhitespace(r[|r| - 1])
  {
    if |s| > 0 && IsWhitespace(s[|s| - 1]) then
      var r := TrimEnd(s[..|s| - 1]);
      assert s[..|s| - 1][|r|..] == s[|r|..|s| - 1];
      r
    else s
  }

  /** `String.prototype.trim`: whitespace removed from both ends. The result is
      the piece of `s` left after cutting a whitespace prefix and a whitespace
      suffix; it is empty exactly when `s` is all whitespace, and otherwise it
      neither starts nor ends with whitespace. */
  function Trim(s: string): (r: string)
    ensures exists i, j ::
      && 0 <= i <= j <= |s| && r == s[i..j]
      && AllWhitespace(s[..i]) && AllWhitespace(s[j..])
    ensures r == [] <==> AllWhitespace(s)
    ensures r != [] ==> !IsWhitespace(r[0]) && !IsWhitespace(r[|r| - 1])
  {
    TrimIsPiece(s);
    TrimEmptyIff(s);
    TrimEnd(TrimStart(s))
  }

  lemma TrimIsPiece(s: string)
    ensures exists i, j ::
      && 0 <= i <= j <= |s| && TrimEnd(TrimStart(s)) == s[i..j]
      && AllWhitespace(s[..i]) && AllWhitespace(s[j..])
  {
    var t := TrimStart(s);
    PieceWitness(s, |s| - |t|, t, TrimEnd(t));
  }

  /** A prefix `r` of the suffix `t == s[i..]`, where `s[..i]` and what `r`
      drops from `t` are whitespace, is a piece of `s` between a whitespace
      prefix and a whitespace suffix. */
  lemma PieceWitness(s: string, i: nat, t: string, r: string)
    requires i <= |s| && t == s[i..] && AllWhitespace(s[..i])
    requires |r| <= |t| && r == t[..|r|] && AllWhitespace(t[|r|..])
    ensures exists i, j ::
      && 0 <= i <= j <= |s| && r == s[i..j]
      && AllWhitespace(s[..i]) && AllWhitespace(s[j..])
  {
    var j := i + |r|;
    SliceOfSuffix(s, i, |r|);
    SuffixOfSuffix(s, i, |r|);
    assert r == s[i..j] && AllWhitespace(s[..i]) && AllWhitespace(s[j..]);
  }

  lemma TrimEmptyIff(s: string)
    ensures TrimEnd(TrimStart(s)) == [] <==> AllWhitespace(s)
  {
    var t := TrimStart(s);
    if TrimEnd(t) == [] {
      var i := |s| - |t|;
      assert AllWhitespace(t);
      SplitAt(s, i);
      AllWhitespaceConcat(s[..i], s[i..]);
    }
  }

  lemma SliceOfSuffix(s: string, i: nat, n: nat)
    requires i + n <= |s|
    ensures s[i..][..n] == s[i..i + n]
  {
  }

  lemma SuffixOfSuffix(s: string, i: nat, n: nat)
    requires i + n <= |s|
    ensures s[i..][n..] == s[i + n..]
  {
  }

  lemma SplitAt(s: string, i: nat)
    requires i <= |s|
    ensures s[..i] + s[i..] == s
  {
  }

  lemma AllWhitespaceConcat(a: string, b: string)
    requires AllWhitespace(a) && AllWhitespace(b)
    ensures AllWhitespace(a + b)
  {
    forall k | 0 <= k < |a + b| ensures IsWhitespace((a + b)[k]) {
      if k >= |a| { assert (a + b)[k] == b[k - |a|]; }
    }
  }

  /** Trimming twice removes nothing more than trimming once. */
  lemma TrimIdempotent(s: string)
    ensures Trim(Trim(s)) == Trim(s)
  {
    var r := Trim(s);
    if r != [] {
      TrimFixedPoint(r);
    }
  }

  /** A string that neither starts nor ends with whitespace is its own trim. */
  lemma TrimFixedPoint(s: string)
    requires s != [] && !IsWhitespace(s[0]) && !IsWhitespace(s[|s| - 1])
    ensures Trim(s) == s
  {
    assert TrimStart(s) == s;
    assert TrimEnd(s) == s;
  }

  /** `String.prototype.split(sep)` for a one-character separator: the pieces
      between separators, in order. Like JavaScript, the empty string splits
      into one empty piece and adjacent separators yield empty pieces. */
  function Split(s: string, sep: char): (r: seq<string>)
    ensures |r| >= 1
    ensures forall i :: 0 <= i < |r| ==> sep !in r[i]
    ensures |r| == Count(s, sep) + 1
  {
    if |s| == 0 then [""]
    else
      var rest := Split(s[1..], sep);
      if s[0] == sep then [""] + rest
      else [[s[0]] + rest[0]] + rest[1..]
  }

  /** Number of occurrences of `c` in `s`. */
  function Count(s: string, c: char): nat {
    if |s| == 0 then 0 else (if s[0] == c then 1 else 0) + Count(s[1..], c)
  }

  /** `Array.prototype.join(sep)` over strings. */
  function Join(pieces: seq<string>, sep: char): string {
    if |pieces| == 0 then ""
    else if |pieces| == 1 then pieces[0]
    else pieces[0] + [sep] + Join(pieces[1..], sep)
  }

  /** Joining the pieces of a split with the same separator gives back the
      original string. */
  lemma {:induction false} JoinSplit(s: string, sep: char)
    ensures Join(Split(s, sep), sep) == s
  {
    if |s| > 0 {
      var rest := Split(s[1..], sep);
      JoinSplit(s[1..], sep);
      if s[0] == sep {
        assert Split(s, sep) == [""] + rest;
        assert ([""] + rest)[1..] == rest;
      } else {
        var r := [[s[0]] + rest[0]] + rest[1..];
        assert Split(s, sep) == r;
        if |rest| == 1 {
          assert Join(rest, sep) == rest[0];
        } else {
          assert r[1..] == rest[1..];
          assert Join(rest, sep) == rest[0] + [sep] + Join(rest[1..], sep);
        }
      }
    }
  }

  /** Splitting a join of separator-free pieces gives back the pieces. */
  lemma {:induction false} SplitJoin(pieces: seq<string>, sep: char)
    requires |pieces| >= 1
    requires forall i :: 0 <= i < |pieces| ==> sep !in pieces[i]
    ensures Split(Join(pieces, sep), sep) == pieces
  {
    if |pieces| == 1 {
      SplitPiece(pieces[0], "", sep);
      assert pieces[0] + "" == pieces[0];
    } else {
      var tail := Join(pieces[1..], sep);
      SplitJoin(pieces[1..], sep);
      SplitPiece(pieces[0], [sep] + tail, sep);
      assert pieces[0] + [sep] + tail == pieces[0] + ([sep] + tail);
      assert ([sep] + tail)[1..] == tail;
      var st := Split([sep] + tail, sep);
      assert st == [""] + Split(tail, sep);
      assert st[0] == "" && st[1..] == pieces[1..];
      assert pieces[0] + st[0] == pieces[0];
      assert [pieces[0]] + pieces[1..] == pieces;
    }
  }

  /** A separator-free prefix is glued onto the first piece of what follows. */
  lemma {:induction false} SplitPiece(a: string, t: string, sep: char)
    requires sep !in a
    ensures Split(a + t, sep) == [a + Split(t, sep)[0]] + Split(t, sep)[1..]
  {
    if |a| > 0 {
      var st := Split(t, sep);
      SplitPiece(a[1..], t, sep);
      assert (a + t)[1..] == a[1..] + t;
      assert (a + t)[0] == a[0] && a[0] != sep;
      var rest := Split(a[1..] + t, sep);
      assert rest == [a[1..] + st[0]] + st[1..];
      assert rest[0] == a[1..] + st[0] && rest[1..] == st[1..];
      assert Split(a + t, sep) == [[a[0]] + rest[0]] + rest[1..];
      assert [a[0]] + (a[1..] + st[0]) == a + st[0];
    } else {
      var st := Split(t, sep);
      assert a + t == t && a + st[0] == st[0];
      assert [st[0]] + st[1..] == st;
    }
  }

  /** The first piece of a split is a prefix of the string that runs up to the
      first separator or to the end, and it is empty only when the string is
      empty or starts with the separator. */
  lemma FirstPiece(s: string, sep: char)
    ensures Split(s, sep)[0] <= s
    ensures Split(s, sep)[0] == s
      || (|Split(s, sep)[0]| < |s| && s[|Split(s, sep)[0]|] == sep)
    ensures Split(s, sep)[0] == [] <==> s == [] || s[0] == sep
  {
    JoinSplit(s, sep);
    var r := Split(s, sep);
    if |r| > 1 {
      assert Join(r, sep) == r[0] + [sep] + Join(r[1..], sep);
    }
    if s != [] && s[0] != sep {
      assert r[0] == [s[0]] + Split(s[1..], sep)[0];
    }
  }

  /** The number of UTF-16 code units of `s`: characters outside the Basic
      Multilingual Plane take a surrogate pair. */
  function Utf16Length(s: string): (n: nat)
    ensures |s| <= n <= 2 * |s|
    ensures n == |s| <==> forall i :: 0 <= i < |s| ==> s[i] as int <= 0xFFFF
  {
    if |s| == 0 then 0
    else (if s[0] as int > 0xFFFF then 2 else 1) + Utf16Length(s[1..])
  }
}

=== FILE: maybe.dfy ===
/** The optional value the scripts express with `null` / `undefined`. */
module Maybe {

  datatype Option<+T> = None | Some(value: T)
}

=== FILE: popup.dfy ===
/**
  The management popup's PopupManager (popup/popup.js): the rendered list,
  the add/edit form with its edit mode, and the add, update and delete
  operations on the stored snippet array.

  The store is a value: each operation receives the array the storage read
  would deliver and whether the read and the write fail, and returns the
  array the store holds afterwards (unchanged on any failure) together with
  the toast it shows.
 */
module Popup {
  import opened Maybe
  import opened JsString
  import opened Snippets

  const StorageKey: string := "snippets"

  const NoSnippetsMessage: string := "スニペットはまだありません"
  const EnterTextMessage: string := "テキストを入力してください"
  const LoadFailedMessage: string := "スニペットの読み込みに失敗しました"
  const AddFailedMessage: string := "スニペットの追加に失敗しました"
  const SaveFailedMessage: string := "スニペットの保存に失敗しました"
  const AddedMessage: string := "スニペットを追加しました"
  const UpdateFailedMessage: string := "スニペットの更新に失敗しました"
  const UpdatedMessage: string := "スニペットを更新しました"
  const DeleteFailedMessage: string := "スニペットの削除に失敗しました"
  const DeletedMessage: string := "スニペットを削除しました"

  /** One child of the `snippets-list` element: the empty-state message, or
      an item whose edit and delete buttons are bound to `snippet` and
      `index`. */
  datatype ListEntry =
    | EmptyMessage(message: string)
    | Item(caption: string, tooltip: string, snippet: Snippet, index: nat)

  /** The add button's face: "追加" (add) or "更新" (update). */
  datatype Face = AddFace | UpdateFace

  datatype ToastKind = SuccessToast | ErrorToast
  datatype Toast = Toast(kind: ToastKind, message: string)

  /** The popup's document and PopupManager's `editingIndex`. */
  datatype PopupState = PopupState(
    editingIndex: Option<int>,
    titleField: string,     // value of `new-snippet-title`
    textField: string,      // value of `new-snippet-text`
    face: Face,
    actionButtons: bool,    // an `action-buttons` element exists
    cancelButtons: nat,     // elements with id `cancel-edit-btn`
    list: seq<ListEntry>)   // children of `snippets-list`

  /** Whether the storage read and the storage write report an error. */
  datatype StoreIo = StoreIo(readFails: bool, writeFails: bool)

  /** What one handler leaves behind: the popup, the stored array, the toast. */
  datatype Step = Step(popup: PopupState, store: seq<Snippet>, toast: Option<Toast>)

  /** The popup when its document has loaded and nothing has been read yet. */
  function Init(actionButtons: bool): (p: PopupState)
    ensures Consistent(p) && p.editingIndex.None?
  {
    PopupState(None, "", "", AddFace, actionButtons, 0, [])
  }

  /** The edit-mode invariant: at most one cancel button, only while
      editing, and the add button shows "更新" exactly while editing. */
  predicate Consistent(p: PopupState) {
    && p.cancelButtons <= 1
    && (p.cancelButtons == 1 ==> p.editingIndex.Some?)
    && (p.editingIndex.Some? <==> p.face == UpdateFace)
  }

  /* ---------------------------------------------------------------------- */
  /* Rendering                                                               */
  /* ---------------------------------------------------------------------- */

  /** `createSnippetItem`: caption `title || '無題'`, tooltip the text. */
  function CreateSnippetItem(s: Snippet, index: nat): (e: ListEntry)
    ensures e.Item? && e.caption != "" && e.tooltip == s.text
    ensures s.title != "" ==> e.caption == s.title
    ensures s.title == "" ==> e.caption == Untitled
  {
    Item(ListCaption(s), s.text, s, index)
  }

  /** The `forEach` of `renderSnippets` from position `from` on. */
  function Items(list: seq<Snippet>, from: nat): (r: seq<ListEntry>)
    requires from <= |list|
    ensures |r| == |list| - from
    ensures forall i :: from <= i < |list| ==> r[i - from] == CreateSnippetItem(list[i], i)
    decreases |list| - from
  {
    if from == |list| then []
    else [CreateSnippetItem(list[from], from)] + Items(list, from + 1)
  }

  /** `renderSnippets`: the empty-state message alone for an empty array;
      otherwise one item per snippet, in order, each bound to its index. */
  function RenderSnippets(list: seq<Snippet>): (r: seq<ListEntry>)
    ensures list == [] ==> r == [EmptyMessage(NoSnippetsMessage)]
    ensures list != [] ==> |r| == |list|
    ensures forall i :: 0 <= i < |list| ==> r[i] == CreateSnippetItem(list[i], i)
  {
    if |list| == 0 then [EmptyMessage(NoSnippetsMessage)]
    else Items(list, 0)
  }

  /** The snippets the list's items are bound to, in order; the empty-state
      message carries none. */
  function Listed(entries: seq<ListEntry>): seq<Snippet> {
    if |entries| == 0 then []
    else (if entries[0].Item? then [entries[0].snippet] else []) + Listed(entries[1..])
  }

  /** Reading the snippets back from the rendered list gives the array that
      was rendered, in order, for the empty array too. */
  lemma ListedRenderSnippets(list: seq<Snippet>)
    ensures Listed(RenderSnippets(list)) == list
  {
    if |list| > 0 {
      ListedItems(list, 0);
    }
  }

  lemma {:induction false} ListedItems(list: seq<Snippet>, from: nat)
    requires from <= |list|
    ensures Listed(Items(list, from)) == list[from..]
    decreases |list| - from
  {
    if from < |list| {
      ListedItems(list, from + 1);
      assert Items(list, from)[1..] == Items(list, from + 1);
      assert list[from..] == [list[from]] + list[from + 1..];
    }
  }

  /** Every item of a rendered list is bound to the snippet it shows and to
      that snippet's position in the array, so its edit and delete buttons
      act on the entry the user sees. */
  lemma RenderedItemsPointBack(list: seq<Snippet>, k: nat)
    requires k < |RenderSnippets(list)|
    ensures RenderSnippets(list)[k].Item? <==> list != []
    ensures RenderSnippets(list)[k].Item? ==>
      && RenderSnippets(list)[k].index == k
      && RenderSnippets(list)[k].snippet == list[k]
      && RenderSnippets(list)[k].tooltip == list[k].text
  {
  }

  /* ---------------------------------------------------------------------- */
  /* Edit mode                                                               */
  /* ---------------------------------------------------------------------- */

  /** `clearInputs`. */
  function ClearInputs(p: PopupState): (r: PopupState)
    ensures r.titleField == "" && r.textField == ""
    ensures r.(titleField := p.titleField, textField := p.textField) == p
  {
    p.(titleField := "", textField := "")
  }

  /** `addCancelButton`: nothing if a cancel button exists already;
      otherwise one is inserted into `action-buttons`, if that exists. */
  function AddCancelButton(p: PopupState): (r: PopupState)
    ensures r.(cancelButtons := p.cancelButtons) == p
    ensures p.cancelButtons > 0 || !p.actionButtons ==> r == p
    ensures p.cancelButtons == 0 && p.actionButtons ==> r.cancelButtons == 1
  {
    if p.cancelButtons > 0 then p
    else if p.actionButtons then p.(cancelButtons := 1)
    else p
  }

  /** Adding the cancel button twice is adding it once, and it never makes
      a second one. */
  lemma AddCancelButtonIdempotent(p: PopupState)
    ensures AddCancelButton(AddCancelButton(p)) == AddCancelButton(p)
    ensures p.cancelButtons <= 1 ==> AddCancelButton(p).cancelButtons <= 1
  {
  }

  /** `startEdit`: enter edit mode on `index`, fill the form with the
      snippet, turn the add button into "更新" and add the cancel button. */
  function StartEdit(p: PopupState, s: Snippet, index: int): (r: PopupState)
    ensures r.editingIndex == Some(index)
    ensures r.titleField == s.title && r.textField == s.text
    ensures r.face == UpdateFace && r.list == p.list
    ensures Consistent(p) ==> Consistent(r)
  {
    AddCancelButton(p.(editingIndex := Some(index), titleField := s.title,
                       textField := s.text, face := UpdateFace))
  }

  /** `cancelEdit`: leave edit mode, clear the form, restore "追加" and
      remove the cancel button. */
  function CancelEdit(p: PopupState): (r: PopupState)
    ensures r.editingIndex.None? && r.face == AddFace
    ensures r.titleField == "" && r.textField == ""
    ensures r.list == p.list && r.actionButtons == p.actionButtons
    ensures Consistent(p) ==> Consistent(r) && r.cancelButtons == 0
  {
    ClearInputs(p).(editingIndex := None, face := AddFace,
                    cancelButtons := if p.cancelButtons > 0 then p.cancelButtons - 1 else 0)
  }

  /** Starting an edit and cancelling it leaves a consistent popup in add
      mode with an empty form and no cancel button. */
  lemma StartThenCancel(p: PopupState, s: Snippet, index: int)
    requires Consistent(p)
    ensures var r := CancelEdit(StartEdit(p, s, index));
      r.editingIndex.None? && r.cancelButtons == 0 && r.face == AddFace
      && r.titleField == "" && r.textField == "" && r.list == p.list
  {
  }

  /* ---------------------------------------------------------------------- */
  /* Store operations                                                        */
  /* ---------------------------------------------------------------------- */

  /** `loadSnippets`: render what the store holds, or show an error. */
  function LoadSnippets(p: PopupState, store: seq<Snippet>, readFails: bool): (r: Step)
    ensures r.store == store
    ensures readFails ==> r.popup == p && r.toast == Some(Toast(ErrorToast, LoadFailedMessage))
    ensures !readFails ==> r.popup == p.(list := RenderSnippets(store)) && r.toast.None?
  {
    if readFails then Step(p, store, Some(Toast(ErrorToast, LoadFailedMessage)))
    else Step(p.(list := RenderSnippets(store)), store, None)
  }

  /** The popup's `chrome.storage.onChanged` listener: a change to the
      snippet key in the sync area re-renders the new array, or the empty
      state when the key was removed. */
  function OnStorageChanged(p: PopupState, area: string, changedKeys: set<string>,
                            newValue: Option<seq<Snippet>>): (r: PopupState)
    ensures r.(list := p.list) == p
    ensures area == "sync" && StorageKey in changedKeys && newValue.Some? ==>
      r.list == RenderSnippets(newValue.value)
    ensures area == "sync" && StorageKey in changedKeys && newValue.None? ==>
      r.list == [EmptyMessage(NoSnippetsMessage)]
    ensures !(area == "sync" && StorageKey in changedKeys) ==> r == p
  {
    if area == "sync" && StorageKey in changedKeys then
      p.(list := RenderSnippets(if newValue.Some? then newValue.value else []))
    else p
  }

  /** `addSnippet`. A blank text field, a failed read or a failed write
      leave the store and the popup as they were; otherwise the store gets
      exactly one new entry at the end, the form is cleared and the list
      shows the new store. Edit mode is not involved. */
  function AddSnippet(p: PopupState, store: seq<Snippet>, io: StoreIo): (r: Step)
    ensures r.popup.editingIndex == p.editingIndex
    ensures r.store == store
      || (!AllWhitespace(p.textField)
          && r.store == Append(store, SnippetFromForm(p.titleField, p.textField).value))
    ensures AllWhitespace(p.textField) ==>
      r == Step(p, store, Some(Toast(ErrorToast, EnterTextMessage)))
    ensures io.readFails || io.writeFails ==> r.store == store && r.popup == p
    ensures !AllWhitespace(p.textField) && !io.readFails && !io.writeFails ==>
      && r.store == Append(store, SnippetFromForm(p.titleField, p.textField).value)
      && r.popup.list == RenderSnippets(r.store)
      && r.popup.titleField == "" && r.popup.textField == ""
      && r.toast == Some(Toast(SuccessToast, AddedMessage))
    ensures Consistent(p) ==> Consistent(r.popup)
  {
    match SnippetFromForm(p.titleField, p.textField)
    case None => Step(p, store, Some(Toast(ErrorToast, EnterTextMessage)))
    case Some(s) =>
      if io.readFails then Step(p, store, Some(Toast(ErrorToast, AddFailedMessage)))
      else
        var updated := Append(store, s);
        if io.writeFails then Step(p, store, Some(Toast(ErrorToast, SaveFailedMessage)))
        else Step(ClearInputs(p).(list := RenderSnippets(updated)), updated,
                  Some(Toast(SuccessToast, AddedMessage)))
  }

  /** `updateSnippet`. The guard `editingIndex >= 0 && editingIndex <
      length` decides whether an entry is replaced; with `editingIndex`
      null the assignment `snippets[null]` sets a non-index property that
      is not stored, so the array is written back as read. A successful
      write ends edit mode whether or not an entry was replaced. */
  function UpdateSnippet(p: PopupState, store: seq<Snippet>, io: StoreIo): (r: Step)
    ensures |r.store| == |store|
    ensures p.editingIndex.None? ==> r.store == store
    ensures p.editingIndex.Some? ==>
      forall j :: 0 <= j < |store| && j != p.editingIndex.value ==> r.store[j] == store[j]
    ensures AllWhitespace(p.textField) || io.readFails || io.writeFails ==>
      r.store == store && r.popup == p
    ensures !AllWhitespace(p.textField) && !io.readFails && !io.writeFails ==>
      && r.popup.editingIndex.None?
      && r.popup.list == RenderSnippets(r.store)
      && r.toast == Some(Toast(SuccessToast, UpdatedMessage))
      && (p.editingIndex.Some? && 0 <= p.editingIndex.value < |store| ==>
            r.store[p.editingIndex.value] == SnippetFromForm(p.titleField, p.textField).value)
    ensures Consistent(p) ==> Consistent(r.popup)
  {
    match SnippetFromForm(p.titleField, p.textField)
    case None => Step(p, store, Some(Toast(ErrorToast, EnterTextMessage)))
    case Some(s) =>
      if io.readFails then Step(p, store, Some(Toast(ErrorToast, UpdateFailedMessage)))
      else
        var updated := if p.editingIndex.Some? then ReplaceAt(store, p.editingIndex.value, s) else store;
        if io.writeFails then Step(p, store, Some(Toast(ErrorToast, UpdateFailedMessage)))
        else Step(CancelEdit(p).(list := RenderSnippets(updated)), updated,
                  Some(Toast(SuccessToast, UpdatedMessage)))
  }

  /** `handleAddOrUpdate`: update exactly when `editingIndex !== null`.
      In edit mode the number of snippets never changes, only the edited
      position can change, and a successful save writes the built record
      there and ends edit mode; outside edit mode existing entries are never
      touched, and a successful save appends the built record. */
  function HandleAddOrUpdate(p: PopupState, store: seq<Snippet>, io: StoreIo): (r: Step)
    ensures p.editingIndex.Some? ==>
      && |r.store| == |store|
      && (forall j :: 0 <= j < |store| && j != p.editingIndex.value ==> r.store[j] == store[j])
      && (!AllWhitespace(p.textField) && !io.readFails && !io.writeFails ==>
            r.popup.editingIndex.None?)
    ensures p.editingIndex.None? ==>
      && r.popup.editingIndex.None?
      && |store| <= |r.store| <= |store| + 1
      && r.store[..|store|] == store
    ensures !AllWhitespace(p.textField) && !io.readFails && !io.writeFails ==>
      && (p.editingIndex.None? ==>
            r.store == Append(store, SnippetFromForm(p.titleField, p.textField).value))
      && (p.editingIndex.Some? && 0 <= p.editingIndex.value < |store| ==>
            r.store[p.editingIndex.value] == SnippetFromForm(p.titleField, p.textField).value)
  {
    if p.editingIndex.Some? then UpdateSnippet(p, store, io) else AddSnippet(p, store, io)
  }

  /** `deleteSnippet` as written: after a confirmed dialog, the entry at
      `index` is filtered out of the stored array. `editingIndex` is left
      as it was. */
  function DeleteSnippet(p: PopupState, store: seq<Snippet>, index: int, confirmed: bool,
                         io: StoreIo): (r: Step)
    ensures r.popup.(list := p.list) == p
    ensures !confirmed ==> r == Step(p, store, None)
    ensures io.readFails || io.writeFails ==> r.store == store && r.popup == p
    ensures confirmed && !io.readFails && !io.writeFails ==>
      && r.store == RemoveAt(store, index)
      && r.popup.list == RenderSnippets(r.store)
      && r.toast == Some(Toast(SuccessToast, DeletedMessage))
  {
    if !confirmed then Step(p, store, None)
    else if io.readFails then Step(p, store, Some(Toast(ErrorToast, DeleteFailedMessage)))
    else
      var updated := RemoveAt(store, index);
      if io.writeFails then Step(p, store, Some(Toast(ErrorToast, DeleteFailedMessage)))
      else Step(p.(list := RenderSnippets(updated)), updated, Some(Toast(SuccessToast, DeletedMessage)))
  }

  /** Deleting an entry in front of the one being edited, then pressing
      "更新", overwrites the entry that followed the edited one and leaves
      the edited one as it was. With `[a, b, c, d]`, editing `c` (index 2)
      and deleting `a` gives `[b, c, s]`: `d` is lost. */
  lemma DeleteWhileEditingOverwritesNeighbour(p: PopupState, a: Snippet, b: Snippet,
                                              c: Snippet, d: Snippet, ok: StoreIo)
    requires p.editingIndex == Some(2) && !AllWhitespace(p.textField)
    requires !ok.readFails && !ok.writeFails
    ensures var del := DeleteSnippet(p, [a, b, c, d], 0, true, ok);
      var upd := HandleAddOrUpdate(del.popup, del.store, ok);
      upd.store == [b, c, SnippetFromForm(p.titleField, p.textField).value]
  {
    var del := DeleteSnippet(p, [a, b, c, d], 0, true, ok);
    assert del.store == [b, c, d];
    SaveWritesEditedEntry(del.popup, del.store, ok);
  }

  /** A successful save in edit mode with an in-range index replaces that
      entry with the record built from the form and leaves the rest. */
  lemma SaveWritesEditedEntry(p: PopupState, store: seq<Snippet>, ok: StoreIo)
    requires p.editingIndex.Some? && 0 <= p.editingIndex.value < |store|
    requires !AllWhitespace(p.textField) && !ok.readFails && !ok.writeFails
    ensures HandleAddOrUpdate(p, store, ok).store
      == store[p.editingIndex.value := SnippetFromForm(p.titleField, p.textField).value]
  {
  }

  /** The corrected delete: the same array edit, and on
      success `editingIndex` keeps naming the entry being edited. An entry
      before it moves it down by one; deleting the edited entry itself ends
      edit mode. */
  function DeleteSnippetKeepingEdit(p: PopupState, store: seq<Snippet>, index: int,
                                    confirmed: bool, io: StoreIo): (r: Step)
    ensures r.store == DeleteSnippet(p, store, index, confirmed, io).store
    ensures r.toast == DeleteSnippet(p, store, index, confirmed, io).toast
    ensures Consistent(p) ==> Consistent(r.popup)
  {
    var plain := DeleteSnippet(p, store, index, confirmed, io);
    if !confirmed || io.readFails || io.writeFails || !(0 <= index < |store|) then plain
    else
      match p.editingIndex
      case None => plain
      case Some(e) =>
        if e == index then plain.(popup := CancelEdit(plain.popup))
        else if index < e then plain.(popup := plain.popup.(editingIndex := Some(e - 1)))
        else plain
  }

  /** With the corrected delete, edit mode still names the same entry
      after a successful delete of another one, and it ends when the edited
      entry itself is deleted. */
  lemma KeptEditFollowsEntry(p: PopupState, store: seq<Snippet>, index: int, io: StoreIo)
    requires p.editingIndex.Some? && 0 <= p.editingIndex.value < |store|
    requires 0 <= index < |store| && !io.readFails && !io.writeFails
    ensures var r := DeleteSnippetKeepingEdit(p, store, index, true, io);
      && (index == p.editingIndex.value ==> r.popup.editingIndex.None?)
      && (index != p.editingIndex.value ==>
            r.popup.editingIndex.Some?
            && 0 <= r.popup.editingIndex.value < |r.store|
            && r.store[r.popup.editingIndex.value] == store[p.editingIndex.value])
  {
    RemoveAtShifts(store, index);
  }

  /** Deleting in front of the edited entry and then updating replaces the
      edited entry and nothing else. */
  lemma DeleteThenUpdateHitsEditedEntry(p: PopupState, store: seq<Snippet>, index: int, ok: StoreIo)
    requires p.editingIndex.Some? && 0 <= index < p.editingIndex.value < |store|
    requires !AllWhitespace(p.textField) && !ok.readFails && !ok.writeFails
    ensures var del := DeleteSnippetKeepingEdit(p, store, index, true, ok);
      var upd := HandleAddOrUpdate(del.popup, del.store, ok);
      upd.store == RemoveAt(store, index)[p.editingIndex.value - 1 := SnippetFromForm(p.titleField, p.textField).value]
  {
    var del := DeleteSnippetKeepingEdit(p, store, index, true, ok);
    RemoveAtShifts(store, index);
    assert del.popup.editingIndex == Some(p.editingIndex.value - 1);
    assert del.popup.titleField == p.titleField && del.popup.textField == p.textField;
    SaveWritesEditedEntry(del.popup, del.store, ok);
  }

  /* ---------------------------------------------------------------------- */
  /* The popup as an event loop                                              */
  /* ---------------------------------------------------------------------- */

  /** The user's and the store's events, with the outcome of the storage
      calls and of the delete dialog each one triggers. */
  datatype Event =
    | Loaded(readFails: bool)
    | TypeInto(title: string, text: string)
    | ClickAdd(io: StoreIo)                   // the add button or Ctrl+Enter
    | ClickEdit(k: nat)                       // edit button of list entry k
    | ClickDelete(k: nat, confirmed: bool, io: StoreIo)
    | ClickCancel                             // the cancel-edit button
    | StorageChanged(area: string, keys: set<string>, newValue: Option<seq<Snippet>>)

  /** One event handled the way popup.js handles it. */
  function Dispatch(p: PopupState, store: seq<Snippet>, e: Event): (r: Step)
    ensures Consistent(p) ==> Consistent(r.popup)
    ensures e.ClickDelete? ==> r.popup.editingIndex == p.editingIndex
  {
    match e
    case Loaded(readFails) => LoadSnippets(p, store, readFails)
    case TypeInto(title, text) => Step(p.(titleField := title, textField := text), store, None)
    case ClickAdd(io) => HandleAddOrUpdate(p, store, io)
    case ClickEdit(k) =>
      if k < |p.list| && p.list[k].Item? then
        Step(StartEdit(p, p.list[k].snippet, p.list[k].index), store, None)
      else Step(p, store, None)
    case ClickDelete(k, confirmed, io) =>
      if k < |p.list| && p.list[k].Item? then
        DeleteSnippet(p, store, p.list[k].index, confirmed, io)
      else Step(p, store, None)
    case ClickCancel =>
      if p.cancelButtons > 0 then Step(CancelEdit(p), store, None) else Step(p, store, None)
    case StorageChanged(area, keys, newValue) =>
      Step(OnStorageChanged(p, area, keys, newValue), store, None)
  }

  /** The same loop with the corrected delete: every event but a delete is
      handled as above, and a delete changes the store exactly as above. */
  function DispatchCorrected(p: PopupState, store: seq<Snippet>, e: Event): (r: Step)
    ensures Consistent(p) ==> Consistent(r.popup)
    ensures !e.ClickDelete? ==> r == Dispatch(p, store, e)
    ensures r.store == Dispatch(p, store, e).store
  {
    match e
    case ClickDelete(k, confirmed, io) =>
      if k < |p.list| && p.list[k].Item? then
        DeleteSnippetKeepingEdit(p, store, p.list[k].index, confirmed, io)
      else Step(p, store, None)
    case _ => Dispatch(p, store, e)
  }

  /** A sequence of events, handled by popup.js's loop or, with `corrected`,
      by the loop with the corrected delete. */
  function Run(p: PopupState, store: seq<Snippet>, events: seq<Event>, corrected: bool): Step
    decreases |events|
  {
    if |events| == 0 then Step(p, store, None)
    else
      var s := if corrected then DispatchCorrected(p, store, events[0])
               else Dispatch(p, store, events[0]);
      Run(s.popup, s.store, events[1..], corrected)
  }

  /** Whatever the user and the store do, in either loop, the popup never
      shows more than one cancel button, shows one only while editing, and
      shows "更新" exactly while editing. */
  lemma {:induction false} RunKeepsConsistent(p: PopupState, store: seq<Snippet>,
                                               events: seq<Event>, corrected: bool)
    requires Consistent(p)
    ensures Consistent(Run(p, store, events, corrected).popup)
    decreases |events|
  {
    if |events| > 0 {
      var s := if corrected then DispatchCorrected(p, store, events[0])
               else Dispatch(p, store, events[0]);
      RunKeepsConsistent(s.popup, s.store, events[1..], corrected);
    }
  }
}

=== FILE: snippets.dfy ===
/**
  The stored snippet record and the pure list edits the popup performs on the
  stored array before writing it back (popup/popup.js).
 */
module Snippets {
  import opened JsString
  import opened Maybe

  datatype Snippet = Snippet(title: string, text: string)

  /** The placeholder title shown for a snippet without one. */
  const Untitled: string := "無題"

  /** `[...snippets, s]`: one new entry at the end, the rest untouched. */
  function Append(list: seq<Snippet>, s: Snippet): (r: seq<Snippet>)
    ensures |r| == |list| + 1
    ensures r[..|list|] == list && r[|list|] == s
  {
    list + [s]
  }

  /** `snippets[i] = s` behind the guard `i >= 0 && i < snippets.length`. */
  function ReplaceAt(list: seq<Snippet>, i: int, s: Snippet): (r: seq<Snippet>)
    ensures |r| == |list|
    ensures forall j :: 0 <= j < |list| && j != i ==> r[j] == list[j]
    ensures 0 <= i < |list| ==> r[i] == s
    ensures !(0 <= i < |list|) ==> r == list
  {
    if 0 <= i < |list| then list[i := s] else list
  }

  /** `snippets.filter((_, j) => j !== i)`, walking the array from position
      `from` the way `filter` does. */
  function FilterOutIndex(list: seq<Snippet>, i: int, from: nat): seq<Snippet>
    decreases |list| - from
  {
    if from >= |list| then []
    else (if from == i then [] else [list[from]]) + FilterOutIndex(list, i, from + 1)
  }

  /** The popup's delete: every entry except the one at `i`, in order. */
  function RemoveAt(list: seq<Snippet>, i: int): (r: seq<Snippet>)
    ensures 0 <= i < |list| ==> r == list[..i] + list[i + 1..]
    ensures !(0 <= i < |list|) ==> r == list
  {
    FilterOutIndexIsRemoval(list, i, 0);
    assert list[0..] == list;
    FilterOutIndex(list, i, 0)
  }

  /** Filtering from position `from` keeps the suffix `list[from..]` minus the
      entry at `i`, if `i` falls inside that suffix. */
  lemma {:induction false} FilterOutIndexIsRemoval(list: seq<Snippet>, i: int, from: nat)
    requires from <= |list|
    ensures from <= i < |list| ==> FilterOutIndex(list, i, from) == list[from..i] + list[i + 1..]
    ensures !(from <= i < |list|) ==> FilterOutIndex(list, i, from) == list[from..]
    decreases |list| - from
  {
    if from < |list| {
      FilterOutIndexIsRemoval(list, i, from + 1);
      assert list[from..] == [list[from]] + list[from + 1..];
      if from < i < |list| {
        assert list[from..i] == [list[from]] + list[from + 1..i];
      }
    }
  }

  /** Removing the entry just appended gives back the list. */
  lemma RemoveAppended(list: seq<Snippet>, s: Snippet)
    ensures RemoveAt(Append(list, s), |list|) == list
  {
    assert (list + [s])[..|list|] == list;
  }

  /** Putting the removed entry back where it was restores the list. */
  lemma RemoveThenReinsert(list: seq<Snippet>, i: int)
    requires 0 <= i < |list|
    ensures RemoveAt(list, i)[..i] + [list[i]] + RemoveAt(list, i)[i..] == list
  {
    var r := RemoveAt(list, i);
    assert r[..i] == list[..i] && r[i..] == list[i + 1..];
    assert list == list[..i] + [list[i]] + list[i + 1..];
  }

  /** Removal keeps every other entry in its relative order: the entries
      before `i` stay put and the ones after it move down by one. */
  lemma RemoveAtShifts(list: seq<Snippet>, i: int)
    requires 0 <= i < |list|
    ensures |RemoveAt(list, i)| == |list| - 1
    ensures forall j :: 0 <= j < i ==> RemoveAt(list, i)[j] == list[j]
    ensures forall j :: i <= j < |list| - 1 ==> RemoveAt(list, i)[j] == list[j + 1]
  {
  }

  /** Replacing an entry by what was there before changes nothing. */
  lemma ReplaceWithSame(list: seq<Snippet>, i: int)
    requires 0 <= i < |list|
    ensures ReplaceAt(list, i, list[i]) == list
  {
  }

  /** The first `'\n'`-separated line, `text.split('\n')[0]`: everything
      up to the first line break, or the whole text when it has none. */
  function FirstLine(text: string): (r: string)
    ensures r <= text && '\n' !in r
    ensures r == text || (|r| < |text| && text[|r|] == '\n')
  {
    FirstPiece(text, '\n');
    Split(text, '\n')[0]
  }

  /** `title || text.split('\n')[0] || '無題'` on already-trimmed inputs:
      JavaScript's `||` passes over the empty string. */
  function DeriveTitle(title: string, text: string): (r: string)
    ensures r != ""
    ensures title != "" ==> r == title
    ensures title == "" && FirstLine(text) != "" ==> r == FirstLine(text)
    ensures title == "" && FirstLine(text) == "" ==> r == Untitled
  {
    if title != "" then title
    else if FirstLine(text) != "" then FirstLine(text)
    else Untitled
  }

  /** The record `addSnippet` and `updateSnippet` build from the two input
      fields, or None when the trimmed text is empty (the "please enter text"
      error). The text is stored trimmed; the title is derived from the trimmed
      fields. */
  function SnippetFromForm(titleField: string, textField: string): (r: Option<Snippet>)
    ensures r.None? <==> AllWhitespace(textField)
    ensures r.Some? ==> r.value.text == Trim(textField) && r.value.title != ""
    ensures r.Some? && Trim(titleField) != "" ==> r.value.title == Trim(titleField)
    ensures r.Some? && Trim(titleField) == "" ==> r.value.title == FirstLine(r.value.text)
  {
    var text := Trim(textField);
    if text == "" then None
    else
      assert Trim(titleField) == "" ==> FirstLine(text) != "" by {
        FirstPiece(text, '\n');
      }
      Some(Snippet(DeriveTitle(Trim(titleField), text), text))
  }

  /** With the text trimmed and non-empty, its first line is never empty, so
      the "無題" fallback of the title expression is never reached: an untitled
      snippet is named after the start of its own text, up to the first line
      break, and that name starts with a non-whitespace character. */
  lemma UntitledFallbackUnreachable(titleField: string, textField: string)
    requires !AllWhitespace(textField)
    requires Trim(titleField) == ""
    ensures SnippetFromForm(titleField, textField).Some?
    ensures var s := SnippetFromForm(titleField, textField).value;
      && s.title == FirstLine(s.text)
      && s.title != "" && s.title <= s.text && '\n' !in s.title
      && !IsWhitespace(s.title[0])
  {
    var text := Trim(textField);
    assert !IsWhitespace(text[0]);
    FirstPiece(text, '\n');
    assert FirstLine(text)[0] == text[0];
  }

  /** Saving the form again right after it was filled from a stored snippet,
      as `startEdit` does, stores the same text: the stored text is already
      trimmed. */
  lemma ResaveKeepsText(titleField: string, textField: string)
    requires !AllWhitespace(textField)
    ensures var s := SnippetFromForm(titleField, textField).value;
      && SnippetFromForm(s.title, s.text).Some?
      && SnippetFromForm(s.title, s.text).value.text == s.text
  {
    TrimIdempotent(textField);
  }

  /** The caption the popup list shows: `snippet.title || '無題'`. */
  function ListCaption(s: Snippet): (r: string)
    ensures r != ""
    ensures s.title != "" ==> r == s.title
    ensures s.title == "" ==> r == Untitled
  {
    if s.title != "" then s.title else Untitled
  }
}
